=== FILE: README.md ===
# Nimbie driver: protocol framing and disk operations

This project models the command/response framing of the Nimbie disk
duplicator driver (`driver.py`) in Dafny. It also models the fixed order of
tray movements and commands in the driver's disk operations. The model is
made of pure functions over an abstract environment, `Driver.Env`:

- stream: what each successive USB bulk read returns, a sequence of byte
  sequences;
- exits: the exit code of each successive run of the external `eject`
  program, which opens or closes the tray.

Every operation returns an `Outcome`. It holds the result (a value or one
of the driver's errors), the environment that is left, and the actions it
performed in order. An action is `OpenTray`, `CloseTray` or `Write(frame)`,
where `frame` is the 8-byte frame written to the OUT endpoint.

Modules, one per part of the driver:

- Types: bytes, `Message = Str(text) | Raw(bytes)`, the error values and
  `Result`.
- Codec: `array_to_string` and `read`, and an encoder that is their
  inverse.
- Command: the command frame of `send_command`.
- Response: `get_response` over the read stream.
- Status: the status extraction of `disk_available`.
- Driver: `send_command`, `disk_available`, `place_disk`, `lift_disk`,
  `accept_disk`, `reject_disk`, and the tray collaborator.
- Operations: `load_next_disk`, `accept_current_disk` and
  `reject_current_disk`.

Three consequences of driver.py that a reader might not expect:

- `array_to_string` drops only the final byte (driver.py:90), so interior
  zero bytes stay in the decoded string as `'\0'` characters.
- A single zero byte also decodes to `""` and, like an empty read, ends
  the burst (driver.py:77, `Codec.EmptyReadIff`).
- In `status[2] == "1"` (driver.py:137), a status that stayed raw bytes
  compares an integer with a string. That comparison is always false, so
  a raw status never reports a disk.

## Model

| member | source | states |
|---|---|---|
| `Codec.ArrayToString` | driver.py:83-90 | The empty transfer gives `""`. A transfer ending in 0 gives a string one shorter, whose character i is `chr` of byte i. Any other transfer fails with `NotString`, carrying its last byte. |
| `Codec.Read` | driver.py:96-101 | The message is raw exactly when the transfer is non-empty and does not end in 0, and then it is the transfer unchanged. Otherwise it is the string `array_to_string` gives. |
| `Codec.EmptyReadIff` | driver.py:84-90 | A read decodes to the burst terminator exactly when it is empty or a single zero byte. |
| `Codec.ReadWellFormed` | driver.py:83-101 | Every decoded string is Latin-1, and every raw message is non-empty and does not end in 0. |
| `Codec.ReadEncode` | driver.py:83-101 | Decoding what the device sends for a message gives back that message. |
| `Codec.EncodeRead` | driver.py:83-101 | Re-encoding a decoded non-empty transfer gives back the transfer. The empty transfer is the only one that cannot be told apart from `[0]`. |
| `Command.Frame` | driver.py:59-61 | The frame of up to six opcodes always has 8 bytes. |
| `Command.FrameLayout` | driver.py:59-61 | Bytes 0 and 1 are zero, byte i+2 is opcode i, and every byte after the opcodes is zero. |
| `Command.BuildFrame` | driver.py:59-61 | The zero-filled buffer, filled in by the opcode loop, has the layout above and equals `Frame`. |
| `Command.FrameOpcodes` | driver.py:59-61 | The opcodes can be read back from the frame. Two opcode lists of the same length share a frame only if they are equal. |
| `Command.FrameTrailingZero` | driver.py:59-61 | A trailing zero opcode gives the same frame as leaving it out. |
| `Response.ReadFixed` | driver.py:70-73 | The first loop takes the first n reads whatever they are. It fails exactly when fewer than n reads exist. |
| `Response.ReadUntilEmpty` | driver.py:75-79 | The second loop keeps non-empty messages up to the first empty read, which exists and is left out. It fails only when no read is empty. |
| `Response.GetResponse` | driver.py:66-80 | The burst's first `minimum` elements are the first reads. Every later element is non-empty. The next read is empty. On failure no burst answers the stream. |
| `Response.ResponseUnique` | driver.py:66-80 | At most one burst answers a read stream for a given minimum. |
| `Response.GetResponseComplete` | driver.py:66-80 | `GetResponse` returns a burst exactly when that burst answers the stream, in both directions. |
| `Response.PlaceholderExample` | driver.py:66-80 | The reads "", "OK", "AT+S07", "" with minimum 1 give the burst "", "OK", "AT+S07". |
| `Status.FirstIndex` | driver.py:131 | `list.index` returns the position of the first occurrence. |
| `Status.StatusToken` | driver.py:130-136 | A burst without "OK" fails with `MissingOk`. Otherwise the token is the element after the first "OK", and it fails with `IndexOutOfRange` when nothing follows that "OK". |
| `Status.ThirdIsOne` | driver.py:137 | The result is true exactly for a string status whose third character is '1'. A raw status is false. A status shorter than three is out of range. |
| `Status.DiskAvailableIn` | driver.py:130-137 | The answer is true exactly when the element after the first "OK" is a string with '1' at index 2. A missing "OK" fails with `MissingOk`. When the first "OK" is the last message it fails with `IndexOutOfRange`; otherwise the answer is the status test of the message after it. |
| `Status.FirstOkDecides` | driver.py:131-137 | Only the first "OK" counts. Nothing after the status token changes the answer. |
| `Status.StatusExample` | driver.py:130-137 | The burst "", "OK", "AT+S07" has the status "AT+S07" and reports no disk. |
| `Driver.SendCommand` | driver.py:55-64 | More than six opcodes fail with nothing written. Otherwise exactly one frame is written and exactly one response is collected with minimum 1, using exactly the burst's length plus one reads. |
| `Driver.SendCommandReply` | driver.py:55-64 | Within the opcode limit and for the same device answers, the reply and the reads used do not depend on the opcodes. |
| `Driver.DiskAvailable` | driver.py:127-137 | Only the state query 0x43 is written. It fails only with a protocol error: no answer, no "OK", or out of range. It fails with no answer exactly when no burst answers the read stream. Otherwise it consumes exactly that burst's reads and its terminator. |
| `Driver.DiskAvailableMeaning` | driver.py:127-137 | When a burst answers the read stream, the result is the status extraction of that burst, whether true, false, `MissingOk` or out of range. The answer is true exactly when that burst has a string with '1' at index 2 right after its first "OK". |
| `Driver.CommandFramesDistinct` | driver.py:108-124 | The query, place, lift, accept and reject commands write pairwise different frames. |
| `Driver.PlaceDisk` | driver.py:108-112 | The state query is always written first. A failed query's error is passed on unchanged. `NoDisk` is raised exactly when the query answers false. The place command 0x52 0x01 is written exactly when the query answers true, and its reply is the result. On success the query's burst and then the place command's burst are the next two bursts of the read stream, and both are consumed. |
| `Driver.LiftDisk` | driver.py:115-116 | Only the frame of 0x47 0x01 is written. The reply is the stream's next burst, with exactly its reads consumed. It fails, with no answer, exactly when the stream holds no burst. |
| `Driver.AcceptDisk` | driver.py:119-120 | Only the frame of 0x52 0x02 is written. The reply is the stream's next burst, with exactly its reads consumed. It fails, with no answer, exactly when the stream holds no burst. |
| `Driver.RejectDisk` | driver.py:123-124 | Only the frame of 0x52 0x03 is written. The reply is the stream's next burst, with exactly its reads consumed. It fails, with no answer, exactly when the stream holds no burst. |
| `Driver.RunTray` | eject.py:3-12 | The tray action is performed once. It succeeds exactly on exit code 0. A non-zero code fails with `TrayFailed`, and a missing code with `NoAnswer`. |
| `Operations.LoadNextDisk` | driver.py:140-143 | Opening the tray is always the first action. |
| `Operations.LoadNextDiskTrace` | driver.py:140-143 | The actions are a prefix of OpenTray, query, place, CloseTray, and all of them when the operation succeeds. |
| `Operations.LoadNextDiskResult` | driver.py:140-143 | The operation returns normally exactly when opening the tray, placing the disk and closing the tray all succeed. Otherwise it returns the error of the first step that failed. |
| `Operations.LoadExample` | driver.py:140-143 | A disk can be loaded: on the replies "", "OK", "001" to the query and "OK" to the place command, with both tray runs exiting 0, `load_next_disk` succeeds, performs its whole plan and uses up every read and exit code. |
| `Operations.LoadExampleQuery` | driver.py:127-137 | The query step of that example reports a disk and consumes its four reads. |
| `Operations.LoadExamplePlace` | driver.py:111-112 | The place command of that example is answered with "OK" and consumes the remaining reads. |
| `Operations.LoadExamplePlaceDisk` | driver.py:108-112 | `place_disk` in that example writes the query and the place command and returns the place reply. |
| `Operations.NoDiskExample` | driver.py:108-110 | The end of the input queue can happen: after the tray opens, the reply "", "OK", "AT+S07" makes `load_next_disk` fail with `NoDisk`, writing only the query. |
| `Operations.LoadNextDiskNoDisk` | driver.py:140-143 | `NoDisk` is returned exactly when the tray opened and the query answered false. The actions are then OpenTray and the query only. CloseTray is performed only after a successful placement. More than one action is performed exactly when the tray opened, and all four exactly when the placement also succeeded. |
| `Operations.DropCurrentDisk` | driver.py:146-157 | Opening the tray is always the first action. |
| `Operations.AcceptCurrentDisk` | driver.py:146-150 | Accepting starts by opening the tray. |
| `Operations.RejectCurrentDisk` | driver.py:153-157 | Rejecting starts by opening the tray. |
| `Operations.DropCurrentDiskResult` | driver.py:146-157 | Accepting or rejecting returns normally exactly when opening the tray, lifting, closing the tray and the drop command all succeed. Otherwise it returns the error of the first step that failed. |
| `Operations.DropCurrentDiskTrace` | driver.py:146-157 | The actions are a prefix of OpenTray, lift, CloseTray, drop, and all of them when the operation succeeds. The first failure ends the trace: the lift is written exactly when the tray opened, CloseTray follows exactly when the lift also succeeded, and the drop is written exactly when the tray also closed. |
| `Operations.AcceptRejectDiffer` | driver.py:146-157 | For the same device answers, accept and reject give the same result and leave the same environment. Their actions differ only in the final drop command. Accept never writes the reject frame, and reject never writes the accept frame. |

## Left out

- USB discovery, configuration and endpoint selection (driver.py:26-53) are foreign library I/O. The model has one abstract read stream and records the frames it writes. Writes to the OUT endpoint (driver.py:63) always succeed in the model; a USB error raised by the write is not modelled.
- The 20-second read timeout (driver.py:92-94) is not modelled. When the stream or the tray exit codes run out, the model returns `NoAnswer`. This stands for the read or program run that never answers.
- The eject program itself is a foreign process. Only its exit code is modelled, as an element of `Env.exits`.
- Response.GetResponse: `minimum` is a `nat`. In Python, `range` of a negative minimum reads nothing, which behaves like 0. The type excludes negative values.
- Command.Frame: opcodes are bytes by type. Python's `bytearray` raises `ValueError` for values outside 0..255, and that error path is not modelled.
- Status.ThirdIsOne: Python raises `IndexError` for out-of-range indexing. The model reports `IndexOutOfRange` and does not name a Python exception type.
- Operations.LoadNextDisk: its own contract states only that opening the tray comes first. The ordering and result properties are stated by the trace and result lemmas of the Operations module, which keeps the solver's context small.
- Operations.DropCurrentDisk: its own contract states only that opening the tray comes first. The ordering and result properties are stated by the trace and result lemmas of the Operations module, which keeps the solver's context small.
- Operations.AcceptCurrentDisk: its own contract states only that opening the tray comes first. The ordering and result properties are stated by the trace and result lemmas of the Operations module, which keeps the solver's context small.
- Operations.RejectCurrentDisk: its own contract states only that opening the tray comes first. The ordering and result properties are stated by the trace and result lemmas of the Operations module, which keeps the solver's context small.
- The status-code table, the device-state query, tray control that ensures the tray is open or closed, and the queue-processing loops are not part of driver.py and are not modelled.
- The text of exception messages is not modelled. `MissingOk` carries the burst, and `NotString` carries the last byte.

=== FILE: codec.dfy ===
/** The message codec: `array_to_string` and `read` of driver.py, and the
    encoder that is their inverse. */
module Codec {
  import opened Types

  /** `chr` of one byte. */
  function Chr(b: byte): char
  {
    (b as int) as char
  }

  /** The byte a Latin-1 character stands for. */
  function Ord(c: char): byte
    requires (c as int) < 256
  {
    (c as int) as byte
  }

  predicate NullTerminated(a: seq<byte>)
  {
    |a| > 0 && a[|a| - 1] == 0
  }

  /** `array_to_string`: the empty transfer is the empty string; a
      null-terminated one is the string of every byte but the last; any
      other transfer is not a string. Interior zero bytes are kept. */
  function ArrayToString(a: seq<byte>): (r: Result<string>)
    ensures |a| == 0 ==> r == Ok("")
    ensures r.Err? <==> |a| > 0 && a[|a| - 1] != 0
    ensures r.Err? ==> r.error == NotString(a[|a| - 1])
    ensures NullTerminated(a) ==> r.Ok? && |r.value| == |a| - 1
    ensures NullTerminated(a) ==> forall i :: 0 <= i < |a| - 1 ==> r.value[i] == Chr(a[i])
  {
    if |a| == 0 then Ok("")
    else if a[|a| - 1] != 0 then Err(NotString(a[|a| - 1]))
    else Ok(seq(|a| - 1, i requires 0 <= i < |a| - 1 => Chr(a[i])))
  }

  /** `read` after the transfer has arrived: the decoded string, or the raw
      transfer itself when `array_to_string` refuses it. */
  function Read(data: seq<byte>): (m: Message)
    ensures m.Raw? <==> |data| > 0 && data[|data| - 1] != 0
    ensures m.Raw? ==> m.bytes == data
    ensures m.Str? ==> ArrayToString(data) == Ok(m.text)
  {
    match ArrayToString(data)
    case Ok(s) => Str(s)
    case Err(_) => Raw(data)
  }

  /** `len` of a message, as the response loop tests it. */
  function Length(m: Message): nat
  {
    match m
    case Str(s) => |s|
    case Raw(b) => |b|
  }

  /** The burst terminator. */
  predicate IsEmpty(m: Message)
  {
    Length(m) == 0
  }

  predicate Latin1(s: string)
  {
    forall i :: 0 <= i < |s| ==> (s[i] as int) < 256
  }

  /** The messages `Read` can produce. */
  predicate WellFormed(m: Message)
  {
    match m
    case Str(s) => Latin1(s)
    case Raw(b) => |b| > 0 && b[|b| - 1] != 0
  }

  /** What the device sends for a message: a string with its terminating
      zero, or the raw bytes as they are. */
  function Encode(m: Message): (a: seq<byte>)
    requires WellFormed(m)
    ensures |a| > 0
  {
    match m
    case Str(s) => seq(|s|, i requires 0 <= i < |s| => Ord(s[i])) + [0]
    case Raw(b) => b
  }

  /** Exactly two transfers decode to the terminator: the empty one and a
      lone zero byte. */
  lemma EmptyReadIff(data: seq<byte>)
    ensures IsEmpty(Read(data)) <==> data == [] || data == [0]
  {
  }

  /** Every decoded message is one the device could have sent: strings
      hold only Latin-1 characters, raw messages end in a non-zero byte. */
  lemma ReadWellFormed(data: seq<byte>)
    ensures WellFormed(Read(data))
  {
  }

  /** Decoding what the device sends for a message gives that message back. */
  lemma ReadEncode(m: Message)
    requires WellFormed(m)
    ensures Read(Encode(m)) == m
  {
  }

  /** Every non-empty transfer is recovered from its decoding; the empty
      transfer is the only one the codec cannot tell from `[0]`. */
  lemma EncodeRead(data: seq<byte>)
    ensures WellFormed(Read(data))
    ensures data != [] ==> Encode(Read(data)) == data
    ensures data == [] ==> Encode(Read(data)) == [0]
  {
  }
}

=== FILE: command.dfy ===
/** The command frame of `send_command`: up to six opcode bytes laid into
    a zero-filled eight-byte buffer from offset two on. */
module Command {
  import opened Types

  const FrameSize: nat := 8
  const OpcodeOffset: nat := 2
  const MaxOpcodes: nat := 6

  /** The frame written for `ops`, as a reference definition. */
  function Frame(ops: seq<byte>): (f: seq<byte>)
    requires |ops| <= MaxOpcodes
    ensures |f| == FrameSize
  {
    seq(FrameSize, j requires 0 <= j < FrameSize =>
      if OpcodeOffset <= j < OpcodeOffset + |ops| then ops[j - OpcodeOffset] else 0)
  }

  /** The layout of a frame: two zero bytes, the opcodes, zero padding. */
  lemma FrameLayout(ops: seq<byte>)
    requires |ops| <= MaxOpcodes
    ensures Frame(ops)[..OpcodeOffset] == [0, 0]
    ensures Frame(ops)[OpcodeOffset..OpcodeOffset + |ops|] == ops
    ensures forall j :: OpcodeOffset + |ops| <= j < FrameSize ==> Frame(ops)[j] == 0
  {
  }

  /** The opcodes a frame carries, given how many were sent. */
  function Opcodes(f: seq<byte>, n: nat): seq<byte>
    requires |f| == FrameSize && n <= MaxOpcodes
  {
    f[OpcodeOffset..OpcodeOffset + n]
  }

  /** `bytearray(8)` filled by the opcode loop of `send_command`. */
  method BuildFrame(ops: seq<byte>) returns (message: seq<byte>)
    requires |ops| <= MaxOpcodes
    ensures |message| == FrameSize
    ensures message[0] == 0 && message[1] == 0
    ensures forall i :: 0 <= i < |ops| ==> message[i + OpcodeOffset] == ops[i]
    ensures forall j :: OpcodeOffset + |ops| <= j < FrameSize ==> message[j] == 0
    ensures message == Frame(ops)
  {
    message := seq(FrameSize, _ => 0);
    var i := 0;
    while i < |ops|
      invariant 0 <= i <= |ops|
      invariant |message| == FrameSize
      invariant forall j :: 0 <= j < FrameSize ==>
        message[j] == if OpcodeOffset <= j < OpcodeOffset + i then ops[j - OpcodeOffset] else 0
    {
      message := message[i + OpcodeOffset := ops[i]];
      i := i + 1;
    }
  }

  /** The opcodes are recovered from the frame, so two opcode lists of the
      same length share a frame only if they are equal. */
  lemma FrameOpcodes(ops: seq<byte>, other: seq<byte>)
    requires |ops| <= MaxOpcodes && |other| == |ops|
    ensures Opcodes(Frame(ops), |ops|) == ops
    ensures Frame(ops) == Frame(other) <==> ops == other
  {
  }

  /** Trailing zero opcodes are invisible: the frame cannot tell them from
      absent ones. */
  lemma FrameTrailingZero(ops: seq<byte>)
    requires |ops| < MaxOpcodes
    ensures Frame(ops + [0]) == Frame(ops)
  {
  }
}

=== FILE: driver.dfy ===
/** The `Nimbie` driver as pure functions over an abstract environment: the
    reads the device will answer with, the exit codes the tray program will
    return, and the actions performed, in order. */
module Driver {
  import opened Types
  import opened Codec
  import opened Command
  import opened Response
  import opened Status

  /** `stream[i]` is the transfer the i-th read returns; `exits[i]` is the
      exit code of the i-th run of the eject program. */
  datatype Env = Env(stream: seq<seq<byte>>, exits: seq<int>)

  /** What the outside world sees: a tray movement or a frame written to
      the OUT endpoint. */
  datatype Action = OpenTray | CloseTray | Write(frame: seq<byte>)

  /** The result of an operation, the environment left after it, and the
      actions it performed. */
  datatype Outcome<+T> = Outcome(result: Result<T>, env: Env, actions: seq<Action>)

  const QueryOps: seq<byte> := [0x43]
  const PlaceOps: seq<byte> := [0x52, 0x01]
  const LiftOps: seq<byte> := [0x47, 0x01]
  const AcceptOps: seq<byte> := [0x52, 0x02]
  const RejectOps: seq<byte> := [0x52, 0x03]

  /** `send_command`: more than six opcodes fail before anything is
      written; otherwise the frame is written and exactly one response is
      collected, with a minimum of one message. */
  function SendCommand(env: Env, ops: seq<byte>): (o: Outcome<seq<Message>>)
    ensures |ops| > MaxOpcodes ==> o == Outcome(Err(TooManyArguments(|ops|)), env, [])
    ensures |ops| <= MaxOpcodes ==> o.actions == [Write(Frame(ops))] && o.env.exits == env.exits
    ensures o.result.Ok? ==> IsResponse(env.stream, 1, o.result.value)
    ensures o.result.Ok? ==> o.env.stream == env.stream[|o.result.value| + 1..]
    ensures |ops| <= MaxOpcodes && o.result.Err? ==>
      o.result.error == NoAnswer && forall burst :: !IsResponse(env.stream, 1, burst)
  {
    if |ops| > MaxOpcodes then Outcome(Err(TooManyArguments(|ops|)), env, [])
    else
      var sent := [Write(Frame(ops))];
      match GetResponse(env.stream, 1)
      case Ok(burst) => Outcome(Ok(burst), env.(stream := env.stream[|burst| + 1..]), sent)
      case Err(e) => Outcome(Err(e), env.(stream := []), sent)
  }

  /** `disk_available`: the state query, answered from the first "OK" of
      its reply. */
  function DiskAvailable(env: Env): (o: Outcome<bool>)
    ensures o.actions == [Write(Frame(QueryOps))]
    ensures o.env.exits == env.exits
    ensures o.result.Err? ==> o.result.error.NoAnswer? || o.result.error.MissingOk? || o.result.error.IndexOutOfRange?
    ensures o.result == Err(NoAnswer) <==> forall burst :: !IsResponse(env.stream, 1, burst)
    ensures o.result != Err(NoAnswer) ==>
      exists burst :: IsResponse(env.stream, 1, burst) && o.env.stream == env.stream[|burst| + 1..]
  {
    var q := SendCommand(env, QueryOps);
    match q.result
    case Err(e) => Outcome(Err(e), q.env, q.actions)
    case Ok(burst) => Outcome(DiskAvailableIn(burst), q.env, q.actions)
  }

  /** The state query answers from the one burst the read stream holds
      for it: true exactly when the message after its first "OK" is a
      string whose third character is '1'; false, `MissingOk` or
      `IndexOutOfRange` as that burst decides otherwise. */
  lemma DiskAvailableMeaning(env: Env)
    ensures forall burst :: IsResponse(env.stream, 1, burst) ==> DiskAvailable(env).result == DiskAvailableIn(burst)
    ensures DiskAvailable(env).result.Ok? ==>
      exists burst :: IsResponse(env.stream, 1, burst) && DiskAvailableIn(burst) == DiskAvailable(env).result
    ensures DiskAvailable(env).result == Ok(true) <==>
      exists burst, k :: IsResponse(env.stream, 1, burst) && FirstOkAt(burst, k) && k + 1 < |burst| && IsOneStatus(burst[k + 1])
  {
    var q := GetResponse(env.stream, 1);
    if q.Ok? {
      forall burst | IsResponse(env.stream, 1, burst)
        ensures DiskAvailable(env).result == DiskAvailableIn(burst)
      {
        ResponseUnique(env.stream, 1, burst, q.value);
      }
    }
  }

  /** `place_disk`: the state query first; with no disk available it fails
      with `NoDisk` and the place command is never written. */
  function PlaceDisk(env: Env): (o: Outcome<seq<Message>>)
    ensures o.actions == [Write(Frame(QueryOps))] || o.actions == [Write(Frame(QueryOps)), Write(Frame(PlaceOps))]
    ensures Write(Frame(PlaceOps)) in o.actions <==> DiskAvailable(env).result == Ok(true)
    ensures o.result == Err(NoDisk) <==> DiskAvailable(env).result == Ok(false)
    ensures o.result.Ok? ==> o.actions == [Write(Frame(QueryOps)), Write(Frame(PlaceOps))]
    ensures o.env.exits == env.exits
    ensures DiskAvailable(env).result.Err? ==> o.result == Err(DiskAvailable(env).result.error)
    ensures DiskAvailable(env).result == Ok(true) ==> o.result == SendCommand(DiskAvailable(env).env, PlaceOps).result
    ensures o.result.Ok? ==> exists q :: (IsResponse(env.stream, 1, q)
      && IsResponse(env.stream[|q| + 1..], 1, o.result.value)
      && o.env.stream == env.stream[|q| + 1..][|o.result.value| + 1..])
  {
    var q := DiskAvailable(env);
    CommandFramesDistinct();
    match q.result
    case Err(e) => Outcome(Err(e), q.env, q.actions)
    case Ok(available) =>
      if !available then Outcome(Err(NoDisk), q.env, q.actions)
      else
        var p := SendCommand(q.env, PlaceOps);
        Outcome(p.result, p.env, q.actions + p.actions)
  }

  /** The five commands write five different frames. */
  lemma CommandFramesDistinct()
    ensures Frame(QueryOps) != Frame(PlaceOps) && Frame(PlaceOps) != Frame(LiftOps)
    ensures Frame(AcceptOps) != Frame(RejectOps)
    ensures Frame(QueryOps) !in {Frame(LiftOps), Frame(AcceptOps), Frame(RejectOps)}
    ensures Frame(PlaceOps) !in {Frame(AcceptOps), Frame(RejectOps)}
    ensures Frame(LiftOps) !in {Frame(AcceptOps), Frame(RejectOps)}
  {
    var q, p, l, a, r := Frame(QueryOps), Frame(PlaceOps), Frame(LiftOps), Frame(AcceptOps), Frame(RejectOps);
    assert q[2] == 0x43 && q[3] == 0;
    assert p[2] == 0x52 && p[3] == 0x01;
    assert l[2] == 0x47 && l[3] == 0x01;
    assert a[2] == 0x52 && a[3] == 0x02;
    assert r[2] == 0x52 && r[3] == 0x03;
  }

  /** The reply of a command is the next burst of the read stream: it is
      returned, with exactly its reads consumed, when the stream holds one,
      and `NoAnswer` is returned exactly when it holds none. */
  ghost predicate NextBurstReply(env: Env, o: Outcome<seq<Message>>)
  {
    && (o.result.Ok? ==> IsResponse(env.stream, 1, o.result.value))
    && (o.result.Ok? ==> o.env.stream == env.stream[|o.result.value| + 1..])
    && (o.result.Err? <==> forall burst :: !IsResponse(env.stream, 1, burst))
    && (o.result.Err? ==> o.result.error == NoAnswer)
    && o.env.exits == env.exits
  }

  /** `lift_disk`, `accept_disk` and `reject_disk`: one fixed two-opcode
      command each. */
  function LiftDisk(env: Env): (o: Outcome<seq<Message>>)
    ensures o.actions == [Write(Frame(LiftOps))]
    ensures NextBurstReply(env, o)
  {
    SendCommand(env, LiftOps)
  }

  function AcceptDisk(env: Env): (o: Outcome<seq<Message>>)
    ensures o.actions == [Write(Frame(AcceptOps))]
    ensures NextBurstReply(env, o)
  {
    SendCommand(env, AcceptOps)
  }

  function RejectDisk(env: Env): (o: Outcome<seq<Message>>)
    ensures o.actions == [Write(Frame(RejectOps))]
    ensures NextBurstReply(env, o)
  {
    SendCommand(env, RejectOps)
  }

  /** `open_tray` / `close_tray`: the eject program runs and a non-zero
      exit code fails the operation. */
  function RunTray(env: Env, opening: bool): (o: Outcome<()>)
    ensures o.actions == [if opening then OpenTray else CloseTray]
    ensures o.env.stream == env.stream
    ensures o.result.Ok? <==> |env.exits| > 0 && env.exits[0] == 0
    ensures o.result.Err? ==> o.result.error == if |env.exits| > 0 then TrayFailed(opening) else NoAnswer
    ensures |env.exits| > 0 ==> o.env.exits == env.exits[1..]
  {
    var act := if opening then OpenTray else CloseTray;
    if |env.exits| == 0 then Outcome(Err(NoAnswer), env, [act])
    else if env.exits[0] != 0 then Outcome(Err(TrayFailed(opening)), env.(exits := env.exits[1..]), [act])
    else Outcome(Ok(()), env.(exits := env.exits[1..]), [act])
  }

  /** Below the opcode limit, for the same device answers, the reply does
      not depend on the opcodes: the driver takes the next burst of the
      read stream whatever command it wrote. */
  lemma SendCommandReply(env: Env, a: seq<byte>, b: seq<byte>)
    requires |a| <= MaxOpcodes && |b| <= MaxOpcodes
    ensures SendCommand(env, a).result == SendCommand(env, b).result
    ensures SendCommand(env, a).env == SendCommand(env, b).env
  {
  }
}

=== FILE: operations.dfy ===
/** The disk operations of the `Nimbie` driver: each is a fixed ordering of
    tray movements and commands, and the first failure ends it. */
module Operations {
  import opened Types
  import opened Command
  import opened Codec
  import opened Driver
  import opened Response
  import opened Status

  /** Every action `load_next_disk` performs when nothing fails. */
  function LoadPlan(): seq<Action>
  {
    [OpenTray, Write(Frame(QueryOps)), Write(Frame(PlaceOps)), CloseTray]
  }

  /** Every action of accepting or rejecting the current disk, dropping it
      with `dropOps`, when nothing fails. */
  function DropPlan(dropOps: seq<byte>): seq<Action>
    requires |dropOps| <= MaxOpcodes
  {
    [OpenTray, Write(Frame(LiftOps)), CloseTray, Write(Frame(dropOps))]
  }

  /** `load_next_disk`: open the tray, place a disk, close the tray. */
  function LoadNextDisk(env: Env): (o: Outcome<()>)
    ensures o.actions != [] && o.actions[0] == OpenTray
  {
    var open := RunTray(env, true);
    if open.result.Err? then Outcome(Err(open.result.error), open.env, open.actions)
    else
      var place := PlaceDisk(open.env);
      if place.result.Err? then Outcome(Err(place.result.error), place.env, open.actions + place.actions)
      else
        var close := RunTray(place.env, false);
        Outcome(close.result, close.env, open.actions + place.actions + close.actions)
  }

  /** The shared body of `accept_current_disk` and `reject_current_disk`:
      open the tray, lift the disk, close the tray, drop the disk with
      `dropOps`. */
  function DropCurrentDisk(env: Env, dropOps: seq<byte>): (o: Outcome<()>)
    requires |dropOps| <= MaxOpcodes
    ensures o.actions != [] && o.actions[0] == OpenTray
  {
    var open := RunTray(env, true);
    if open.result.Err? then Outcome(Err(open.result.error), open.env, open.actions)
    else
      var lift := LiftDisk(open.env);
      if lift.result.Err? then Outcome(Err(lift.result.error), lift.env, open.actions + lift.actions)
      else
        var close := RunTray(lift.env, false);
        if close.result.Err? then Outcome(Err(close.result.error), close.env, open.actions + lift.actions + close.actions)
        else
          var drop := SendCommand(close.env, dropOps);
          var done: Result<()> := if drop.result.Err? then Err(drop.result.error) else Ok(());
          Outcome(done, drop.env, open.actions + lift.actions + close.actions + drop.actions)
  }

  function AcceptCurrentDisk(env: Env): (o: Outcome<()>)
    ensures o.actions != [] && o.actions[0] == OpenTray
  {
    DropCurrentDisk(env, AcceptOps)
  }

  function RejectCurrentDisk(env: Env): (o: Outcome<()>)
    ensures o.actions != [] && o.actions[0] == OpenTray
  {
    DropCurrentDisk(env, RejectOps)
  }

  /** The traces `load_next_disk` can leave are prefixes of its plan:
      `place` stands for what `place_disk` wrote. A helper of
      `LoadNextDiskTrace` that states these facts on their own, so that
      proof does not have to unfold the plan alongside `PlaceDisk`. */
  lemma LoadPlanPrefixes(place: seq<Action>)
    ensures [OpenTray] <= LoadPlan()
    ensures place == [Write(Frame(QueryOps))] ==> [OpenTray] + place <= LoadPlan()
    ensures place == [Write(Frame(QueryOps)), Write(Frame(PlaceOps))] ==>
      [OpenTray] + place <= LoadPlan() && [OpenTray] + place + [CloseTray] == LoadPlan()
  {
  }

  /** `load_next_disk` performs a prefix of its plan, and all of it when it
      succeeds. */
  lemma LoadNextDiskTrace(env: Env)
    ensures LoadNextDisk(env).actions <= LoadPlan()
    ensures LoadNextDisk(env).result.Ok? ==> LoadNextDisk(env).actions == LoadPlan()
  {
    var open := RunTray(env, true);
    if open.result.Ok? {
      LoadPlanPrefixes(PlaceDisk(open.env).actions);
    } else {
      LoadPlanPrefixes([]);
    }
  }

  /** An empty input queue ends `load_next_disk` right after the state
      query: the place command is never written and the tray stays open.
      Any failure of the placement leaves the tray open, and a failure to
      open the tray ends the operation before the query. */
  lemma LoadNextDiskNoDisk(env: Env)
    ensures LoadNextDisk(env).result == Err(NoDisk) <==>
      RunTray(env, true).result.Ok? && DiskAvailable(RunTray(env, true).env).result == Ok(false)
    ensures LoadNextDisk(env).result == Err(NoDisk) ==>
      LoadNextDisk(env).actions == [OpenTray, Write(Frame(QueryOps))]
    ensures CloseTray in LoadNextDisk(env).actions ==> PlaceDisk(RunTray(env, true).env).result.Ok?
    ensures |LoadNextDisk(env).actions| >= 2 <==> RunTray(env, true).result.Ok?
    ensures |LoadNextDisk(env).actions| == 4 <==>
      RunTray(env, true).result.Ok? && PlaceDisk(RunTray(env, true).env).result.Ok?
  {
    var o := LoadNextDisk(env);
    var open := RunTray(env, true);
    if open.result.Ok? {
      var place := PlaceDisk(open.env);
      if place.result.Err? {
        assert o.actions == [OpenTray] + place.actions;
        assert CloseTray !in place.actions;
      }
    }
  }

  /** `load_next_disk` returns normally exactly when opening the tray,
      placing the disk and closing the tray all succeed; otherwise it
      passes on the error of the first step that failed. */
  lemma LoadNextDiskResult(env: Env)
    ensures var open := RunTray(env, true);
            var place := PlaceDisk(open.env);
            var close := RunTray(place.env, false);
            var r := LoadNextDisk(env).result;
            && (r.Ok? <==> open.result.Ok? && place.result.Ok? && close.result.Ok?)
            && (open.result.Err? ==> r == Err(open.result.error))
            && (open.result.Ok? && place.result.Err? ==> r == Err(place.result.error))
            && (open.result.Ok? && place.result.Ok? ==> r == close.result)
  {
  }

  /** The end of the input queue: the tray opens, the state query's
      reply "", "OK", "AT+S07" reports no disk, and `load_next_disk`
      fails with `NoDisk` after writing only the query. */
  lemma NoDiskExample()
    ensures LoadNextDisk(Env([[], [79, 75, 0], [65, 84, 43, 83, 48, 55, 0], []], [0])).result == Err(NoDisk)
    ensures LoadNextDisk(Env([[], [79, 75, 0], [65, 84, 43, 83, 48, 55, 0], []], [0])).actions
         == [OpenTray, Write(Frame(QueryOps))]
  {
    var env := Env([[], [79, 75, 0], [65, 84, 43, 83, 48, 55, 0], []], [0]);
    PlaceholderExample();
    StatusExample();
    assert RunTray(env, true).env.stream == env.stream;
    assert DiskAvailable(RunTray(env, true).env).result == Ok(false);
  }

  /** A disk is loaded: the tray opens, the state query's reply "", "OK",
      "001" reports a disk, the place command is answered with "OK", and
      the tray closes. Every read and every exit code is used up. */
  lemma LoadExample()
    ensures LoadNextDisk(Env([[], [79, 75, 0], [48, 48, 49, 0], [], [79, 75, 0], []], [0, 0]))
         == Outcome(Ok(()), Env([], []), LoadPlan())
  {
    var env := Env([[], [79, 75, 0], [48, 48, 49, 0], [], [79, 75, 0], []], [0, 0]);
    var open := RunTray(env, true);
    assert open == Outcome(Ok(()), Env(env.stream, [0]), [OpenTray]);
    LoadExamplePlaceDisk();
    var close := RunTray(Env([], [0]), false);
    assert close == Outcome(Ok(()), Env([], []), [CloseTray]);
    LoadNextDiskResult(env);
    LoadNextDiskTrace(env);
  }

  /** `place_disk` in `LoadExample`: the query and the place command are
      both answered and written. */
  lemma LoadExamplePlaceDisk()
    ensures PlaceDisk(Env([[], [79, 75, 0], [48, 48, 49, 0], [], [79, 75, 0], []], [0]))
         == Outcome(Ok([Str("OK")]), Env([], [0]), [Write(Frame(QueryOps)), Write(Frame(PlaceOps))])
  {
    LoadExampleQuery();
    LoadExamplePlace();
  }

  /** The state query of `LoadExample` reports a disk and uses up its four
      reads. */
  lemma LoadExampleQuery()
    ensures DiskAvailable(Env([[], [79, 75, 0], [48, 48, 49, 0], [], [79, 75, 0], []], [0]))
         == Outcome(Ok(true), Env([[79, 75, 0], []], [0]), [Write(Frame(QueryOps))])
  {
    var stream: seq<seq<byte>> := [[], [79, 75, 0], [48, 48, 49, 0], [], [79, 75, 0], []];
    var query := [Str(""), Str("OK"), Str("001")];
    assert Read(stream[1]) == Str("OK");
    assert Read(stream[2]) == Str("001");
    GetResponseComplete(stream, 1, query);
    FirstOkDecides([Str("")], Str("001"), []);
    assert query == [Str("")] + [OkMarker, Str("001")] + [];
  }

  /** The place command of `LoadExample` is answered with "OK" and uses up
      the remaining reads. */
  lemma LoadExamplePlace()
    ensures SendCommand(Env([[79, 75, 0], []], [0]), PlaceOps)
         == Outcome(Ok([Str("OK")]), Env([], [0]), [Write(Frame(PlaceOps))])
  {
    var stream: seq<seq<byte>> := [[79, 75, 0], []];
    assert Read(stream[0]) == Str("OK");
    GetResponseComplete(stream, 1, [Str("OK")]);
  }

  /** Accepting or rejecting returns normally exactly when opening the
      tray, lifting the disk, closing the tray and the drop command all
      succeed; otherwise it passes on the error of the first step that
      failed. */
  lemma DropCurrentDiskResult(env: Env, dropOps: seq<byte>)
    requires |dropOps| <= MaxOpcodes
    ensures var open := RunTray(env, true);
            var lift := LiftDisk(open.env);
            var close := RunTray(lift.env, false);
            var drop := SendCommand(close.env, dropOps);
            var r := DropCurrentDisk(env, dropOps).result;
            && (r.Ok? <==> open.result.Ok? && lift.result.Ok? && close.result.Ok? && drop.result.Ok?)
            && (open.result.Err? ==> r == Err(open.result.error))
            && (open.result.Ok? && lift.result.Err? ==> r == Err(lift.result.error))
            && (open.result.Ok? && lift.result.Ok? && close.result.Err? ==> r == Err(close.result.error))
            && (open.result.Ok? && lift.result.Ok? && close.result.Ok? && drop.result.Err? ==> r == Err(drop.result.error))
  {
  }

  /** Accepting or rejecting performs a prefix of its plan, and all of it
      when it succeeds. The first failure ends the trace: the lift is
      followed by a tray movement only when it succeeded, and the drop
      command is written only after the tray closed. */
  lemma DropCurrentDiskTrace(env: Env, dropOps: seq<byte>)
    requires |dropOps| <= MaxOpcodes
    ensures DropCurrentDisk(env, dropOps).actions <= DropPlan(dropOps)
    ensures DropCurrentDisk(env, dropOps).result.Ok? ==> DropCurrentDisk(env, dropOps).actions == DropPlan(dropOps)
    ensures |DropCurrentDisk(env, dropOps).actions| >= 2 <==> RunTray(env, true).result.Ok?
    ensures |DropCurrentDisk(env, dropOps).actions| >= 3 <==>
      RunTray(env, true).result.Ok? && LiftDisk(RunTray(env, true).env).result.Ok?
    ensures |DropCurrentDisk(env, dropOps).actions| == 4 <==>
      RunTray(env, true).result.Ok? && LiftDisk(RunTray(env, true).env).result.Ok? &&
      RunTray(LiftDisk(RunTray(env, true).env).env, false).result.Ok?
  {
    var o := DropCurrentDisk(env, dropOps);
    var open := RunTray(env, true);
    if open.result.Ok? {
      var lift := LiftDisk(open.env);
      if lift.result.Ok? {
        var close := RunTray(lift.env, false);
        if close.result.Ok? {
          assert o.actions == [OpenTray, Write(Frame(LiftOps)), CloseTray, Write(Frame(dropOps))];
        } else {
          assert o.actions == [OpenTray, Write(Frame(LiftOps)), CloseTray];
        }
      } else {
        assert o.actions == [OpenTray, Write(Frame(LiftOps))];
      }
    } else {
      assert o.actions == [OpenTray];
    }
  }

  /** Accepting and rejecting read, fail and leave the environment alike;
      they differ only in the drop command, which each writes exactly when
      it gets that far. */
  lemma AcceptRejectDiffer(env: Env)
    ensures AcceptCurrentDisk(env).result == RejectCurrentDisk(env).result
    ensures AcceptCurrentDisk(env).env == RejectCurrentDisk(env).env
    ensures AcceptCurrentDisk(env).actions == RejectCurrentDisk(env).actions
         || (AcceptCurrentDisk(env).actions == DropPlan(AcceptOps) && RejectCurrentDisk(env).actions == DropPlan(RejectOps))
    ensures Write(Frame(RejectOps)) !in AcceptCurrentDisk(env).actions
    ensures Write(Frame(AcceptOps)) !in RejectCurrentDisk(env).actions
  {
    DropCurrentDiskTrace(env, AcceptOps);
    DropCurrentDiskTrace(env, RejectOps);
    CommandFramesDistinct();
    var open := RunTray(env, true);
    if open.result.Ok? {
      var lift := LiftDisk(open.env);
      if lift.result.Ok? {
        var close := RunTray(lift.env, false);
        if close.result.Ok? {
          SendCommandReply(close.env, AcceptOps, RejectOps);
        }
      }
    }
  }
}

=== FILE: response.dfy ===
/** The response collector `get_response` over an abstract read stream:
    `stream[i]` is what the i-th read of the device returns. */
module Response {
  import opened Types
  import opened Codec

  /** `burst` is what collecting a response from `stream` must give: the
      first `minimum` reads whatever they are, then non-empty messages up to
      an empty one that exists, is consumed and is left out. */
  predicate IsResponse(stream: seq<seq<byte>>, minimum: nat, burst: seq<Message>)
  {
    && minimum <= |burst| < |stream|
    && (forall i :: 0 <= i < |burst| ==> burst[i] == Read(stream[i]))
    && (forall i :: minimum <= i < |burst| ==> !IsEmpty(burst[i]))
    && IsEmpty(Read(stream[|burst|]))
  }

  /** The first loop: `n` reads appended unconditionally. */
  function ReadFixed(stream: seq<seq<byte>>, n: nat): (r: Result<seq<Message>>)
    ensures r.Ok? <==> n <= |stream|
    ensures r.Err? ==> r.error == NoAnswer
    ensures r.Ok? ==> |r.value| == n
    ensures r.Ok? ==> forall i :: 0 <= i < n ==> r.value[i] == Read(stream[i])
  {
    if n == 0 then Ok([])
    else if |stream| == 0 then Err(NoAnswer)
    else
      match ReadFixed(stream[1..], n - 1)
      case Ok(rest) => Ok([Read(stream[0])] + rest)
      case Err(e) => Err(e)
  }

  /** The second loop: messages appended while non-empty; the first empty
      one ends the loop and is dropped. */
  function ReadUntilEmpty(stream: seq<seq<byte>>): (r: Result<seq<Message>>)
    ensures r.Ok? ==> |r.value| < |stream| && IsEmpty(Read(stream[|r.value|]))
    ensures r.Ok? ==> forall i :: 0 <= i < |r.value| ==> r.value[i] == Read(stream[i]) && !IsEmpty(r.value[i])
    ensures r.Err? ==> r.error == NoAnswer
    ensures r.Err? ==> forall i :: 0 <= i < |stream| ==> !IsEmpty(Read(stream[i]))
  {
    if |stream| == 0 then Err(NoAnswer)
    else
      var m := Read(stream[0]);
      if IsEmpty(m) then Ok([])
      else
        match ReadUntilEmpty(stream[1..])
        case Ok(rest) => Ok([m] + rest)
        case Err(e) => Err(e)
  }

  /** `get_response(minimum)`. On success `|burst| + 1` reads are used. */
  function GetResponse(stream: seq<seq<byte>>, minimum: nat): (r: Result<seq<Message>>)
    ensures r.Ok? ==> IsResponse(stream, minimum, r.value)
    ensures r.Err? ==> r.error == NoAnswer
    ensures r.Err? ==> forall burst :: !IsResponse(stream, minimum, burst)
  {
    match ReadFixed(stream, minimum)
    case Err(e) => Err(e)
    case Ok(first) =>
      match ReadUntilEmpty(stream[minimum..])
      case Err(e) =>
        assert forall i :: minimum <= i < |stream| ==> stream[i] == stream[minimum..][i - minimum];
        Err(e)
      case Ok(rest) => Ok(first + rest)
  }

  /** At most one burst answers a read stream. */
  lemma ResponseUnique(stream: seq<seq<byte>>, minimum: nat, b1: seq<Message>, b2: seq<Message>)
    requires IsResponse(stream, minimum, b1) && IsResponse(stream, minimum, b2)
    ensures b1 == b2
  {
  }

  /** `GetResponse` succeeds exactly when a burst answers the read stream,
      and then it returns that burst. */
  lemma GetResponseComplete(stream: seq<seq<byte>>, minimum: nat, burst: seq<Message>)
    ensures GetResponse(stream, minimum) == Ok(burst) <==> IsResponse(stream, minimum, burst)
  {
    if IsResponse(stream, minimum, burst) {
      ResponseUnique(stream, minimum, burst, GetResponse(stream, minimum).value);
    }
  }

  /** A leading empty placeholder is kept when the minimum is one, and the
      burst stops at the next empty read: the stream "", "OK", "AT+S07", ""
      answers with the first three. */
  lemma PlaceholderExample()
    ensures GetResponse([[], [79, 75, 0], [65, 84, 43, 83, 48, 55, 0], []], 1)
         == Ok([Str(""), Str("OK"), Str("AT+S07")])
  {
    var stream: seq<seq<byte>> := [[], [79, 75, 0], [65, 84, 43, 83, 48, 55, 0], []];
    var burst := [Str(""), Str("OK"), Str("AT+S07")];
    assert Read(stream[1]) == Str("OK");
    assert Read(stream[2]) == Str("AT+S07");
    GetResponseComplete(stream, 1, burst);
  }
}

=== FILE: status.dfy ===
/** Status extraction of `disk_available`: the message after the first
    "OK" of a burst, and the test of its third character. */
module Status {
  import opened Types

  const OkMarker: Message := Str("OK")

  /** `list.index`: the position of the first occurrence. */
  function FirstIndex(burst: seq<Message>, m: Message): (k: nat)
    requires m in burst
    ensures k < |burst| && burst[k] == m
    ensures m !in burst[..k]
  {
    if burst[0] == m then 0
    else
      assert burst == [burst[0]] + burst[1..];
      var k := 1 + FirstIndex(burst[1..], m);
      assert burst[..k] == [burst[0]] + burst[1..][..k - 1];
      k
  }

  /** The status token: the message right after the first "OK". A burst
      without "OK" is a protocol error; "OK" as the last message leaves the
      index out of range. */
  function StatusToken(burst: seq<Message>): (r: Result<Message>)
    ensures OkMarker !in burst <==> r == Err(MissingOk(burst))
    ensures r.Ok? <==> exists k :: FirstOkAt(burst, k) && k + 1 < |burst|
    ensures r.Ok? ==> forall k :: FirstOkAt(burst, k) ==> k + 1 < |burst| && r.value == burst[k + 1]
    ensures OkMarker in burst && r.Err? ==> r.error == IndexOutOfRange
  {
    if OkMarker !in burst then Err(MissingOk(burst))
    else
      var k := FirstIndex(burst, OkMarker);
      assert FirstOkAt(burst, k);
      if k + 1 < |burst| then Ok(burst[k + 1]) else Err(IndexOutOfRange)
  }

  /** `status[2] == "1"`. A string status compares its third character; a
      raw status holds integers, which never equal a one-character string.
      A status shorter than three is out of range. */
  function ThirdIsOne(status: Message): (r: Result<bool>)
    ensures r.Err? <==> (status.Str? && |status.text| <= 2) || (status.Raw? && |status.bytes| <= 2)
    ensures r.Err? ==> r.error == IndexOutOfRange
    ensures r == Ok(true) <==> status.Str? && |status.text| > 2 && status.text[2] == '1'
  {
    match status
    case Str(s) => if |s| > 2 then Ok(s[2] == '1') else Err(IndexOutOfRange)
    case Raw(b) => if |b| > 2 then Ok(false) else Err(IndexOutOfRange)
  }

  /** The answer of `disk_available` to the burst the state query produced. */
  function DiskAvailableIn(burst: seq<Message>): (r: Result<bool>)
    ensures OkMarker !in burst ==> r == Err(MissingOk(burst))
    ensures OkMarker in burst && r.Err? ==> r.error == IndexOutOfRange
    ensures r == Ok(true) <==> exists k :: FirstOkAt(burst, k) && k + 1 < |burst| && IsOneStatus(burst[k + 1])
    ensures forall k :: FirstOkAt(burst, k) ==>
      r == if k + 1 < |burst| then ThirdIsOne(burst[k + 1]) else Err(IndexOutOfRange)
  {
    match StatusToken(burst)
    case Err(e) => Err(e)
    case Ok(status) => ThirdIsOne(status)
  }

  predicate FirstOkAt(burst: seq<Message>, k: int)
  {
    && 0 <= k < |burst|
    && burst[k] == OkMarker
    && forall i :: 0 <= i < k ==> burst[i] != OkMarker
  }

  predicate IsOneStatus(status: Message)
  {
    status.Str? && |status.text| > 2 && status.text[2] == '1'
  }

  /** Only the first "OK" matters: what comes before it holds no "OK",
      and nothing after the status token changes the answer. */
  lemma FirstOkDecides(before: seq<Message>, status: Message, after: seq<Message>)
    requires OkMarker !in before
    ensures DiskAvailableIn(before + [OkMarker, status] + after) == ThirdIsOne(status)
  {
    var burst := before + [OkMarker, status] + after;
    var k := |before|;
    assert burst[k] == OkMarker && burst[k + 1] == status;
    assert burst[..k] == before;
    assert FirstOkAt(burst, k);
  }

  /** The reply "", "OK", "AT+S07" carries the status "AT+S07", whose third
      character is '+', so it reports no disk. */
  lemma StatusExample()
    ensures StatusToken([Str(""), OkMarker, Str("AT+S07")]) == Ok(Str("AT+S07"))
    ensures DiskAvailableIn([Str(""), OkMarker, Str("AT+S07")]) == Ok(false)
  {
  }
}

=== FILE: types.dfy ===
/** Values shared by every part of the Nimbie driver model: bytes, decoded
    messages, the driver's error conditions and the result type that carries
    them. */
module Types {

  /** One byte of a USB transfer. */
  newtype byte = x: int | 0 <= x < 256

  /** What one read from the device decodes to: a null-terminated transfer
      becomes a string, anything else non-empty stays the raw bytes. */
  datatype Message = Str(text: string) | Raw(bytes: seq<byte>)

  /** Every exception the modelled code can raise, as a value. */
  datatype Error =
    | NotString(last: byte)          // NotStringError: the transfer does not end in a zero byte
    | TooManyArguments(count: nat)   // more than six opcodes handed to send_command
    | NoAnswer                       // the environment has no further read or tray outcome
    | MissingOk(burst: seq<Message>) // no "OK" message in the reply to the state query
    | IndexOutOfRange                // nothing after "OK", or a status shorter than three
    | NoDisk                         // NoDiskError: the input queue is empty
    | TrayFailed(opening: bool)      // the eject program exited with a non-zero code

  datatype Result<+T> = Ok(value: T) | Err(error: Error)
}
